=== FILE: README.md ===
# Shop demo basket — a Dafny model

This project models the session basket of a small Django shop and the checks
around it:

- **Basket edits.** `BasketChangeView.get` exists in two revisions. The basket
  is a list of product keys in which a repeat means a larger quantity. `add`
  appends a key. In the current revision it does so only when the product
  exists (otherwise 404) and is orderable. Any other action removes the first
  occurrence of the key. Afterwards `products_count` is the list length.
- **Aggregation.** `_get_totals` groups the list into an insertion-ordered dict
  of key → count. `_prepare_basket` (and its inline copy in the older
  revision) prices each group and adds the totals up.
- **Order submission.** `BasketView.form_valid` turns back an empty basket
  with a form error. Otherwise it saves the order, saves one order line per
  distinct key with its count, and drops the two basket keys from the session.
- **Identity validation.** `BasketOrderCreateForm` requires a first name, an
  e-mail address and a phone number unless a signed-in user places the order.
  The hooks see each value after the form field has stripped its whitespace.
- **Alert classes.** `get_class_filter` / `get_class_tag` map a message level
  to a Bootstrap alert class.
- **Soft delete and listing.** Deleting a product clears `in_order`. The index
  lists only orderable products.

The catalogue is a map from key to `Product(price, inOrder)`. The session is a
map from string keys to stored values. Persistence is two append-only tables,
orders and order lines. Every operation is a pure function or a method on
these values. A view that reads the session and returns no session, such as
the aggregation, therefore cannot change it.

Modules, one per file: `Http` (optional values, 404 responses), `Products`,
`Sessions`, `Lists` (`list.index` and `list.remove`), `Aggregation`,
`BasketChange` (current revision), `LegacyBasket` (older revision),
`OrderForm`, `Checkout`, `MessageClasses`.

## Model

| member | source | states |
|---|---|---|
| `Products.Index` | source/webapp/views.py:19-20 | the index lists a product exactly when it exists and its `in_order` flag is set |
| `Products.Delete` | source/webapp/views.py:55-58 | an unknown key is a 404; otherwise the same keys remain, the deleted product keeps its price with `in_order` false, and every other product is unchanged |
| `Products.DeleteHidesFromIndex` | source/webapp/views.py:55-58 | after a delete the product is still resolvable at the same price, and the index loses exactly that product |
| `Products.DeleteIdempotent` | source/webapp/views.py:55-58 | deleting an already deleted product changes nothing |
| `Sessions.Basket` | source/webapp/views.py:64 | a session without a `products` key reads as the empty basket |
| `Sessions.Store` | source/webapp/views.py:80-81 | writing a list back leaves that list under `products`, its length under `products_count`, and every other session key untouched |
| `Lists.IndexOf` | source/webapp/views.py:75-76 | the position found holds the key and no earlier position does |
| `Lists.RemoveFirst` | source/webapp/views.py:75-78 | removal deletes exactly the first occurrence, keeping the rest in order; an absent key leaves the list unchanged; the multiset loses one copy of the key |
| `Lists.RemoveFirstKeepsOrder` | source/webapp/views.py:75-78 | after removal the elements before the first occurrence stay in place, the ones after shift down by one, and the length drops by one |
| `BasketChange.Change` | source/webapp/views.py:63-81 | 404 exactly for an add of a key that names no product; an add of an orderable product appends it once; an add of an unorderable one leaves the list as it was; any other action removes the first occurrence; afterwards the count equals the length and other keys are unchanged |
| `BasketChange.AddThenRemove` | source/webapp/views.py:70-78 | adding an orderable product and then removing it restores the basket's contents as a multiset |
| `BasketChange.DeletedCannotBeAdded` | source/webapp/views.py:70-73 | after a soft delete, adding the product is not a 404 but leaves the basket unchanged |
| `BasketChange.ChangeKeepsKnown` | source/webapp/views.py:70-78 | if every basket key names a product before an edit, it still does after it, so the basket page can price the basket |
| `LegacyBasket.Change` | webapp/views.py:28-44 | add appends the key with no existence or availability check; any other action removes exactly its first occurrence, keeping the order of the rest, or does nothing if absent; the count equals the length afterwards and other keys are unchanged |
| `LegacyBasket.UnknownAddBreaksBasket` | webapp/views.py:35-36 | adding a key that names no product puts it in the basket, after which not every key can be priced |
| `LegacyBasket.AgreesWithCurrent` | webapp/views.py:35-41 | the two revisions produce the same session exactly when the action is not an add or the product exists and is orderable |
| `LegacyBasket.BasketContext` | webapp/views.py:53-67 | no page exactly when some basket key names no product (the lookup raises); otherwise one line per distinct key in first-occurrence order with its product, its occurrence count and count × price as its total, and a page total equal both to the sum of the line totals and to the sum over distinct keys of count × price |
| `Aggregation.FirstOccurrencesSpec` | source/webapp/views.py:127-129 | the dict's keys are exactly the keys in the basket, each once |
| `Aggregation.FirstOccurrencesOrdered` | source/webapp/views.py:127-129 | a key listed before another first occurs in the basket before it |
| `Aggregation.OccurrencesSpec` | source/webapp/views.py:127-130 | the dict holds an entry for exactly the basket's keys, and each entry is that key's number of occurrences |
| `Aggregation.GroupedSum` | source/webapp/views.py:117-120 | summing count × weight over the distinct keys equals summing the weight over every element of the raw list |
| `Aggregation.CountsSumToLength` | source/webapp/views.py:124-131 | the counts add up to the length of the basket |
| `Aggregation.Tally` | source/webapp/views.py:126-131 | the loop builds the first-occurrence key order and the occurrence counts |
| `Aggregation.GetTotals` | source/webapp/views.py:124-131 | the keys are the distinct basket keys in first-occurrence order; each count is the key's multiplicity; the counts sum to the basket length |
| `Aggregation.PriceLines` | source/webapp/views.py:115-122 | one line per key in order, each line total is price × quantity, and the basket total is the sum of the line totals |
| `Aggregation.PrepareBasket` | source/webapp/views.py:113-122 | lines in first-occurrence order with each key's count and price × count, and a basket total that equals both the sum of the line totals and the sum of the prices over the raw list |
| `Aggregation.Example` | source/webapp/views.py:113-131 | keys [7, 7, 3] priced 100 and 50 group to {7: 2, 3: 1} and cost 250 |
| `Checkout.OneLinePerProduct` | source/webapp/views.py:137-140 | every distinct basket key, and only those, gets exactly one order line, and every amount is at least one |
| `Checkout.AmountsSumToLength` | source/webapp/views.py:137-140 | the saved amounts add up to the number of keys in the basket |
| `Checkout.GroupLines` | source/webapp/views.py:139-140 | one order line per group, in group order, with the group's count as amount |
| `Checkout.SaveOrderProducts` | source/webapp/views.py:137-140 | existing lines are kept and the new ones are one per distinct key, pointing at the order, with the key's count as amount |
| `Checkout.CleanBasket` | source/webapp/views.py:142-146 | both basket keys are gone whether or not they were present, every other key is unchanged, and the basket reads as empty |
| `Checkout.FormValid` | source/webapp/views.py:103-111 | an empty basket gives exactly the empty-basket form error with nothing saved; otherwise the order from the corrected save is appended, one line per distinct key is added, the basket keys are cleared and a success message is queued |
| `Checkout.Post` | source/webapp/views.py:98-109 | the form is built for the request's user; identity errors turn it back before the basket is looked at; an order is placed, through the corrected save, exactly when the form validates and the basket is not empty |
| `Checkout.PlacedFlashIsSuccess` | source/webapp/views.py:110 | the order-placed message is rendered with the success alert class |
| `OrderForm.NewForm` | source/webapp/forms.py:8-12 | a user that is absent or not signed in becomes no user; a signed-in user is kept |
| `OrderForm.NormalisedIffBuilt` | source/webapp/forms.py:8-12 | a form holds no user or a signed-in one exactly when the constructor can have built it |
| `OrderForm.TrimStartSpec` | source/webapp/forms.py:14-24 | the field's leading-whitespace strip removes exactly a run of whitespace and leaves a suffix that does not start with whitespace |
| `OrderForm.TrimEndSpec` | source/webapp/forms.py:14-24 | the trailing-whitespace strip removes exactly a run of whitespace and leaves a prefix that does not end with whitespace |
| `OrderForm.StripEmptyIff` | source/webapp/forms.py:14-24 | the field's whitespace stripping leaves nothing exactly when the value is all whitespace |
| `OrderForm.StripIdempotent` | source/webapp/forms.py:14-24 | stripping a stripped value changes nothing |
| `OrderForm.UnsentIsEmpty` | source/webapp/forms.py:15-23 | a field that was not sent and one sent empty or as whitespace only clean to the same empty value |
| `OrderForm.CleanStable` | source/webapp/forms.py:14-24 | a field-cleaned value is unchanged by cleaning it again |
| `OrderForm.BlankIffAllSpace` | source/webapp/forms.py:15-23 | a hook sees its field as blank exactly when it was not sent or holds only whitespace |
| `OrderForm.Validate` | source/webapp/forms.py:14-24 | each of first name, e-mail and phone is reported missing exactly when there is no user and that field, once stripped of whitespace, is absent or empty; with a user nothing is reported |
| `OrderForm.WhitespaceIsMissing` | source/webapp/forms.py:14-24 | an anonymous visitor who sends only whitespace in the three fields is asked for all three |
| `OrderForm.AuthenticatedAlwaysValid` | source/webapp/forms.py:15-23 | a signed-in user passes validation whatever the fields hold |
| `OrderForm.UnauthenticatedIsAnonymous` | source/webapp/forms.py:8-11 | a user that is not signed in is validated exactly like no user |
| `OrderForm.LastNameIgnored` | source/webapp/forms.py:14-32 | changing the last name never changes the validation result |
| `OrderForm.CleanedDataAsWritten` | source/webapp/forms.py:14-24 | as written, the cleaned first name, e-mail and phone are all replaced by nothing; the last name keeps its field-cleaned value |
| `OrderForm.SaveAsWritten` | source/webapp/forms.py:26-28 | as written, the saved order carries the form's user and no contact fields |
| `OrderForm.AsWrittenLosesContact` | source/webapp/forms.py:14-28 | an anonymous visitor who fills in every contact field passes validation, yet the order saved as written has no user and no contact details |
| `OrderForm.CleanedData` | source/webapp/forms.py:14-24 | corrected: each field keeps the field-cleaned value its hook tested, so a kept contact value is blank exactly when the hook reported it missing, and it has no whitespace left to strip |
| `OrderForm.Save` | source/webapp/forms.py:26-28 | the order gets the form's normalised user, possibly none, and the corrected cleaned contact fields |
| `OrderForm.AsWrittenClearsContact` | source/webapp/forms.py:14-28 | the as-written save is the corrected save with first name, e-mail and phone cleared, and nothing else differs |
| `OrderForm.SavedOrderIdentifiable` | source/webapp/forms.py:14-28 | every order accepted by validation of a form built for the request's user has a signed-in user or a non-empty first name, e-mail and phone |
| `OrderForm.SaveDropsUnauthenticatedUser` | source/webapp/forms.py:8-28 | a form built for a visitor who is not signed in saves an order with no user |
| `MessageClasses.Lookup` | source/webapp/templatetags/message_classes.py:6-17 | the lookup is total; DEBUG → secondary, INFO → primary, SUCCESS → success, WARNING → warning, ERROR → danger, any other level → primary |
| `MessageClasses.GetClassFilter` | source/webapp/templatetags/message_classes.py:15-17 | the filter returns the class of the message's level, falling back to primary |
| `MessageClasses.GetClassTag` | source/webapp/templatetags/message_classes.py:20-22 | the tag returns the class of the message's level, falling back to primary |
| `MessageClasses.FilterMatchesTag` | source/webapp/templatetags/message_classes.py:15-22 | filter and tag agree on every message; only the five known levels have an entry, and every other level gets the primary class |

## Left out

- Persistence, routing, redirects (`next`), templates, and the permission and login mixins are framework plumbing. The catalogue is a map. Persistence is a pair of appended tables. An order's primary key is its position in the orders table.
- `get_object_or_404` appears only as the `NotFound` outcome.
- `StatsMixin` and the `stats` context processor are left out. The visit tracking is not part of this model, and the context processor only reads the session with defaults.
- `OrderDeliverView` and `OrderCancelView` are left out. They index a status-choice list that is not part of this model.
- `ManualOrderForm`, `OrderCreateView` and `OrderUpdateView` are left out. That form reads `self.user`, which nothing assigns, so using it fails rather than following a rule.
- The order list, order detail and order-line create, update and delete views are left out. They are plain ORM queries and writes.
- The product create and update views and the URL and admin configuration are left out. They are pure configuration.
- Message levels are a datatype with five named levels and `Custom(n)` for any other integer. Django's concrete level numbers are not modelled.
- Prices are integers. The decimal column type is not modelled.
- Product keys are abstract strings, assumed to be canonical integer strings with one string per product. The lookups convert the key with `int` (`get_object_or_404` and `_prepare_basket`), so `"07"` and `"7"` would name the same product while the basket and the order lines keep them apart; that aliasing is not modelled. A non-numeric key makes the lookup raise `ValueError`, a server error rather than a 404; that is not modelled either. A request without a `pk` parameter is not modelled; in the current revision it behaves like a key that names no product.
- `Aggregation.PrepareBasket` requires every basket key to name a product row. The source raises `DoesNotExist` otherwise, and that crash is not modelled for the current revision, whose edits keep the requirement (`BasketChange.ChangeKeepsKnown`). Soft-deleted products still satisfy it. The older revision can break it (`LegacyBasket.UnknownAddBreaksBasket`), so `LegacyBasket.BasketContext` models the crash as no page.
- `Checkout.SaveOrderProducts` does not check that a key names a product. The database's foreign-key check is not modelled.
- `Sessions.WellFormed` assumes the `products` key, when present, holds a list of keys. Only the basket views write that key.
- Field-level validation derived from the `Order` model declaration is not modelled, because that declaration is not part of this model. Blank contact fields are assumed to reach the `clean_<field>` hooks.
- OrderForm.Validate: the form fields' whitespace stripping is modelled, but their length limits and the e-mail format check are not. An unsent or empty field is cleaned to `""`, the default empty value; a column declared with `null=True` would give `None` instead, which the model does not distinguish, since the model declaration is not part of it and the hooks treat both as blank.
- Checkout.FormValid: it saves the order through the corrected `OrderForm.Save`, not the as-written save described under Findings. The as-written order differs only in having no first name, e-mail or phone (`OrderForm.AsWrittenClearsContact`).
- Checkout.Post: it places the order through `Checkout.FormValid`, so it too saves the corrected `OrderForm.Save` rather than the as-written save described under Findings.
- Concurrent requests on one session are not modelled. Each view is one step from one session value to the next.

## Findings

| source | as written | input that shows it | evidently intended | confidence | as-written member | corrected member |
|---|---|---|---|---|---|---|
| source/webapp/forms.py:14-24 | `clean_first_name`, `clean_email` and `clean_phone` end without `return`. Django stores a hook's return value as the field's cleaned value, so each of the three fields becomes `None` before `save` builds the order. | an anonymous visitor submits first name "Ann", e-mail "ann@example.org" and phone "555" | each hook returns the value it checked, so the order keeps the contact details that validation demanded | medium: not executed; relies on Django's documented `clean_<field>` contract; the `Order` model declaration is not part of this model, so if its contact fields are not declared `null=True` and `blank=True`, model validation rejects the `None` values and the form is turned back instead of being saved without contact details | `OrderForm.SaveAsWritten`, `OrderForm.AsWrittenLosesContact` | `OrderForm.Save`, `OrderForm.SavedOrderIdentifiable` |

=== FILE: aggregation.dfy ===
/** Basket aggregation: the group-by-count pass over the session's id list
    (`_get_totals`) and the priced basket lines built from it
    (`_prepare_basket`). A Python dict iterates in insertion order, so the
    grouped result is a key sequence in first-occurrence order together with
    a key-to-count map. */
module Aggregation {
  import opened Lists
  import opened Products
  import opened Sessions

  /** The distinct ids of `xs`, each kept where it first occurs. */
  function FirstOccurrences(xs: seq<Id>): seq<Id>
  {
    if |xs| == 0 then []
    else
      var init := xs[..|xs| - 1];
      var last := xs[|xs| - 1];
      if last in init then FirstOccurrences(init) else FirstOccurrences(init) + [last]
  }

  /** The first occurrences are exactly the ids of the list, each once. */
  lemma {:induction false} FirstOccurrencesSpec(xs: seq<Id>)
    ensures Distinct(FirstOccurrences(xs))
    ensures forall k :: k in FirstOccurrences(xs) <==> k in xs
  {
    if |xs| > 0 {
      var init := xs[..|xs| - 1];
      var last := xs[|xs| - 1];
      assert xs == init + [last];
      FirstOccurrencesSpec(init);
    }
  }

  /** The count the dict holds for `k`, zero when absent. */
  function Qty(qty: map<Id, nat>, k: Id): nat
  {
    if k in qty then qty[k] else 0
  }

  /** Number of occurrences of every id present in `xs`, counted left to
      right: a new id starts at zero, and every occurrence adds one. */
  function Occurrences(xs: seq<Id>): map<Id, nat>
  {
    if |xs| == 0 then map[]
    else
      var m := Occurrences(xs[..|xs| - 1]);
      var last := xs[|xs| - 1];
      m[last := Qty(m, last) + 1]
  }

  /** The dict has a key for exactly the ids of the list, and the count kept
      for an id is its multiplicity in the list. */
  lemma {:induction false} OccurrencesSpec(xs: seq<Id>)
    ensures forall k :: k in Occurrences(xs) <==> k in xs
    ensures forall k :: k in Occurrences(xs) ==> Occurrences(xs)[k] == multiset(xs)[k]
  {
    if |xs| > 0 {
      var init := xs[..|xs| - 1];
      var last := xs[|xs| - 1];
      assert xs == init + [last];
      OccurrencesSpec(init);
      assert multiset(xs) == multiset(init) + multiset{last};
      forall k | k in Occurrences(xs)
        ensures Occurrences(xs)[k] == multiset(xs)[k]
      {
        if k != last {
          assert k in init;
        } else if last !in init {
          assert multiset(init)[last] == 0;
        }
      }
    }
  }

  /** Sum of `w` over every element of the raw list, repeats included. */
  function SumOver(xs: seq<Id>, w: Id -> int): int
  {
    if |xs| == 0 then 0 else SumOver(xs[..|xs| - 1], w) + w(xs[|xs| - 1])
  }

  /** Sum of `qty[k] * w(k)` over the keys `keys`. */
  function SumLines(keys: seq<Id>, qty: map<Id, nat>, w: Id -> int): int
  {
    if |keys| == 0 then 0
    else SumLines(keys[..|keys| - 1], qty, w) + Qty(qty, keys[|keys| - 1]) * w(keys[|keys| - 1])
  }

  /** The unit weight: with it `SumOver` counts and `SumLines` adds up counts. */
  function One(k: Id): int { 1 }

  /** A product's current price, as `Product.objects.get(pk=pk).price`. */
  function PriceOf(cat: Catalogue): Id -> int
  {
    k => if k in cat then cat[k].price else 0
  }

  lemma {:induction false} SumOverOne(xs: seq<Id>)
    ensures SumOver(xs, One) == |xs|
  {
    if |xs| > 0 {
      SumOverOne(xs[..|xs| - 1]);
    }
  }

  /** The keys of a dict keep their first-occurrence order: an id listed
      before another first occurs in the basket before that other one. */
  lemma {:induction false} FirstOccurrencesOrdered(xs: seq<Id>)
    ensures forall i, j :: 0 <= i < j < |FirstOccurrences(xs)| ==>
      && FirstOccurrences(xs)[i] in xs && FirstOccurrences(xs)[j] in xs
      && IndexOf(xs, FirstOccurrences(xs)[i]) < IndexOf(xs, FirstOccurrences(xs)[j])
  {
    FirstOccurrencesSpec(xs);
    if |xs| > 0 {
      var init := xs[..|xs| - 1];
      var last := xs[|xs| - 1];
      assert xs == init + [last];
      FirstOccurrencesOrdered(init);
      FirstOccurrencesSpec(init);
      var d := FirstOccurrences(init);
      forall k | k in d
        ensures IndexOf(xs, k) == IndexOf(init, k)
      {
        IndexOfAppend(init, [last], k);
      }
      if last !in init {
        IndexOfAfter(init, [last], last);
        assert IndexOf(xs, last) == |init|;
      }
    }
  }

  lemma OccurrencesAppend(xs: seq<Id>, y: Id)
    ensures Occurrences(xs + [y]) == Occurrences(xs)[y := Qty(Occurrences(xs), y) + 1]
  {
  }

  /** How the first occurrences grow when one id is appended. */
  lemma FirstOccurrencesAppend(xs: seq<Id>, y: Id)
    ensures FirstOccurrences(xs + [y]) == if y in xs then FirstOccurrences(xs) else FirstOccurrences(xs) + [y]
  {
  }

  /** One more element `y` in the list raises the grouped sum over any
      distinct key list by `w(y)` exactly when `y` is one of the keys. */
  lemma {:induction false} SumLinesAppend(keys: seq<Id>, xs: seq<Id>, y: Id, w: Id -> int)
    requires Distinct(keys)
    ensures SumLines(keys, Occurrences(xs + [y]), w)
         == SumLines(keys, Occurrences(xs), w) + (if y in keys then w(y) else 0)
  {
    var o := Occurrences(xs);
    var o' := Occurrences(xs + [y]);
    OccurrencesAppend(xs, y);
    if |keys| > 0 {
      var ks := keys[..|keys| - 1];
      var k := keys[|keys| - 1];
      assert keys == ks + [k];
      assert k !in ks;
      SumLinesAppend(ks, xs, y, w);
      if k == y {
        assert Qty(o', k) == Qty(o, k) + 1;
        MulSucc(Qty(o, k), w(k));
      } else {
        assert Qty(o', k) == Qty(o, k);
      }
    }
  }

  /** Distributes one more copy of `b`: kept apart so that the nonlinear step
      does not enter the larger proof's context. */
  lemma MulSucc(a: int, b: int)
    ensures (a + 1) * b == a * b + b
  {
  }

  /** Grouping does not change the sum: summing `count * w` over the
      distinct ids equals summing `w` over the raw list. */
  lemma {:induction false} GroupedSum(xs: seq<Id>, w: Id -> int)
    ensures SumLines(FirstOccurrences(xs), Occurrences(xs), w) == SumOver(xs, w)
  {
    if |xs| > 0 {
      var init := xs[..|xs| - 1];
      var last := xs[|xs| - 1];
      assert xs == init + [last];
      GroupedSum(init, w);
      GroupedSumStep(init, last, w);
    }
  }

  /** The inductive step of `GroupedSum`: appending one id adds its weight on
      both sides. */
  lemma GroupedSumStep(init: seq<Id>, last: Id, w: Id -> int)
    requires SumLines(FirstOccurrences(init), Occurrences(init), w) == SumOver(init, w)
    ensures SumLines(FirstOccurrences(init + [last]), Occurrences(init + [last]), w) == SumOver(init + [last], w)
  {
    var xs := init + [last];
    var d := FirstOccurrences(init);
    assert xs[..|xs| - 1] == init;
    assert SumOver(xs, w) == SumOver(init, w) + w(last);
    FirstOccurrencesSpec(init);
    FirstOccurrencesAppend(init, last);
    SumLinesAppend(d, init, last, w);
    if last !in init {
      OccurrencesSpec(init);
      OccurrencesAppend(init, last);
      var d' := d + [last];
      assert d'[..|d'| - 1] == d;
      assert Qty(Occurrences(xs), last) == 1;
    }
  }

  /** The counts add up to the number of ids in the basket. */
  lemma CountsSumToLength(xs: seq<Id>)
    ensures SumLines(FirstOccurrences(xs), Occurrences(xs), One) == |xs|
  {
    GroupedSum(xs, One);
    SumOverOne(xs);
  }

  /** The result of `_get_totals`: the dict's keys in insertion order and the
      dict itself. */
  datatype Totals = Totals(keys: seq<Id>, qty: map<Id, nat>)

  /** `_get_totals`: one pass over the basket, creating a key at zero on its
      first occurrence and adding one for every occurrence. */
  method GetTotals(s: Session) returns (t: Totals)
    requires WellFormed(s)
    ensures t.keys == FirstOccurrences(Basket(s))
    ensures t.qty == Occurrences(Basket(s))
    ensures Distinct(t.keys)
    ensures forall k :: k in t.keys <==> k in Basket(s)
    ensures forall k :: k in t.qty <==> k in Basket(s)
    ensures forall k :: k in t.qty ==> t.qty[k] == multiset(Basket(s))[k]
    ensures SumLines(t.keys, t.qty, One) == |Basket(s)|
  {
    var products := Basket(s);
    t := Tally(products);
    CountsSumToLength(products);
    FirstOccurrencesSpec(products);
    OccurrencesSpec(products);
  }

  /** The loop of `_get_totals`. */
  method Tally(products: seq<Id>) returns (t: Totals)
    ensures t.keys == FirstOccurrences(products)
    ensures t.qty == Occurrences(products)
  {
    var keys: seq<Id> := [];
    var qty: map<Id, nat> := map[];
    var i := 0;
    while i < |products|
      invariant 0 <= i <= |products|
      invariant keys == FirstOccurrences(products[..i])
      invariant qty == Occurrences(products[..i])
    {
      var pk := products[i];
      TallyStep(products, i);
      ghost var nextKeys := FirstOccurrences(products[..i + 1]);
      ghost var nextQty := Occurrences(products[..i + 1]);
      if pk !in qty {
        keys := keys + [pk];
        qty := qty[pk := 0];
      }
      qty := qty[pk := qty[pk] + 1];
      assert keys == nextKeys && qty == nextQty;
      i := i + 1;
    }
    assert products[..i] == products;
    t := Totals(keys, qty);
  }

  lemma TallyStep(products: seq<Id>, i: nat)
    requires i < |products|
    ensures var pk := products[i]; var occ := Occurrences(products[..i]);
      && FirstOccurrences(products[..i + 1])
         == (if pk in occ then FirstOccurrences(products[..i]) else FirstOccurrences(products[..i]) + [pk])
      && Occurrences(products[..i + 1])
         == (if pk in occ then occ[pk := occ[pk] + 1] else occ[pk := 0][pk := 1])
  {
    var pk := products[i];
    var prefix := products[..i];
    assert products[..i + 1] == prefix + [pk];
    OccurrencesSpec(prefix);
    OccurrencesAppend(prefix, pk);
    FirstOccurrencesAppend(prefix, pk);
    var occ := Occurrences(prefix);
    assert occ[pk := 0][pk := 1] == occ[pk := 1];
  }

  /** One row of the basket page: `{'product': ..., 'qty': ..., 'total': ...}`,
      with the product's key alongside. */
  datatype BasketLine = BasketLine(id: Id, product: Product, qty: nat, total: int)

  function LinesTotal(lines: seq<BasketLine>): int
  {
    if |lines| == 0 then 0 else LinesTotal(lines[..|lines| - 1]) + lines[|lines| - 1].total
  }

  /** The loop of `_prepare_basket` over the grouped keys: one line per key,
      the line total price times quantity, the running total their sum. */
  method PriceLines(cat: Catalogue, keys: seq<Id>, qty: map<Id, nat>) returns (basket: seq<BasketLine>, basketTotal: int)
    requires forall k :: k in keys ==> k in cat && k in qty
    ensures |basket| == |keys|
    ensures forall i :: 0 <= i < |basket| ==>
      && basket[i].id == keys[i]
      && basket[i].product == cat[keys[i]]
      && basket[i].qty == qty[keys[i]]
      && basket[i].total == basket[i].product.price * basket[i].qty
    ensures basketTotal == LinesTotal(basket)
    ensures basketTotal == SumLines(keys, qty, PriceOf(cat))
  {
    basket := [];
    basketTotal := 0;
    var i := 0;
    while i < |keys|
      invariant 0 <= i <= |keys|
      invariant |basket| == i
      invariant forall j :: 0 <= j < i ==>
        && basket[j].id == keys[j]
        && basket[j].product == cat[keys[j]]
        && basket[j].qty == qty[keys[j]]
        && basket[j].total == basket[j].product.price * basket[j].qty
      invariant basketTotal == LinesTotal(basket)
      invariant basketTotal == SumLines(keys[..i], qty, PriceOf(cat))
    {
      var pk := keys[i];
      var product := cat[pk];
      var total := product.price * qty[pk];
      var line := BasketLine(pk, product, qty[pk], total);
      LinesStep(cat, keys, qty, i);
      assert LinesTotal(basket + [line]) == LinesTotal(basket) + total by {
        assert (basket + [line])[..|basket|] == basket;
      }
      basketTotal := basketTotal + total;
      basket := basket + [line];
      i := i + 1;
    }
    assert keys[..i] == keys;
  }

  lemma LinesStep(cat: Catalogue, keys: seq<Id>, qty: map<Id, nat>, i: nat)
    requires i < |keys|
    requires forall k :: k in keys ==> k in cat && k in qty
    ensures SumLines(keys[..i + 1], qty, PriceOf(cat))
         == SumLines(keys[..i], qty, PriceOf(cat)) + cat[keys[i]].price * qty[keys[i]]
  {
    var prefix := keys[..i + 1];
    assert prefix[..|prefix| - 1] == keys[..i];
  }

  /** `_prepare_basket`: one line per distinct id in first-occurrence order,
      each line's total its price times its quantity, and the basket total the
      sum of the line totals, which is the sum of the prices of every id in
      the basket. Every id must resolve to a product row; deleted products
      still do. */
  method PrepareBasket(cat: Catalogue, s: Session) returns (basket: seq<BasketLine>, basketTotal: int)
    requires WellFormed(s)
    requires AllKnown(cat, Basket(s))
    ensures |basket| == |FirstOccurrences(Basket(s))|
    ensures forall i :: 0 <= i < |basket| ==>
      && basket[i].id == FirstOccurrences(Basket(s))[i]
      && basket[i].id in Basket(s)
      && basket[i].product == cat[basket[i].id]
      && basket[i].qty == multiset(Basket(s))[basket[i].id]
      && basket[i].total == basket[i].product.price * basket[i].qty
    ensures basketTotal == LinesTotal(basket)
    ensures basketTotal == SumOver(Basket(s), PriceOf(cat))
  {
    var t := GetTotals(s);
    basket, basketTotal := PriceLines(cat, t.keys, t.qty);
    GroupedSum(Basket(s), PriceOf(cat));
  }

  /** The basket [7, 7, 3] with prices 100 and 50 groups to {7: 2, 3: 1}
      and costs 250 in total. */
  lemma Example()
    ensures FirstOccurrences(["7", "7", "3"]) == ["7", "3"]
    ensures Occurrences(["7", "7", "3"]) == map["7" := 2, "3" := 1]
    ensures SumOver(["7", "7", "3"], PriceOf(map["7" := Product(100, true), "3" := Product(50, true)])) == 250
  {
    var xs := ["7", "7", "3"];
    var cat := map["7" := Product(100, true), "3" := Product(50, true)];
    assert xs[..2] == ["7", "7"];
    assert xs[..2][..1] == ["7"];
    assert ["7"][..0] == [];
    assert FirstOccurrences(["7"]) == ["7"];
    assert FirstOccurrences(["7", "7"]) == ["7"];
    assert SumOver(["7"], PriceOf(cat)) == 100;
    assert SumOver(["7", "7"], PriceOf(cat)) == 200;
    assert multiset(xs) == multiset{"7", "7", "3"};
    assert Occurrences(xs).Keys == {"7", "3"};
  }
}

=== FILE: basket_change.dfy ===
/** The basket edit view (`BasketChangeView.get`, current revision): a GET
    with a product key and an action. `add` appends the key when the product
    exists and is orderable; any other action, or none, removes the first
    occurrence of the key. The list and its cached length are then written
    back to the session. */
module BasketChange {
  import opened Http
  import opened Lists
  import opened Products
  import opened Sessions

  const AddAction := "add"

  /** `action == 'add'`: a missing `action` parameter is not an add. */
  predicate IsAdd(action: Option<string>)
  {
    action == Some(AddAction)
  }

  function Change(cat: Catalogue, s: Session, pk: Id, action: Option<string>): (r: Response<Session>)
    requires WellFormed(s)
    ensures r.NotFound? <==> IsAdd(action) && pk !in cat
    ensures r.Ok? ==> WellFormed(r.value) && CountMatches(r.value) && OthersUnchanged(s, r.value)
    ensures r.Ok? && IsAdd(action) && pk in cat && cat[pk].inOrder ==> Basket(r.value) == Basket(s) + [pk]
    ensures r.Ok? && IsAdd(action) && pk in cat && !cat[pk].inOrder ==> Basket(r.value) == Basket(s)
    ensures r.Ok? && !IsAdd(action) ==> Basket(r.value) == RemoveFirst(Basket(s), pk)
    ensures r.Ok? && !IsAdd(action) ==> multiset(Basket(r.value)) == multiset(Basket(s)) - multiset{pk}
    ensures r.Ok? && !IsAdd(action) && pk !in Basket(s) ==> Basket(r.value) == Basket(s)
  {
    var products := Basket(s);
    if IsAdd(action) then
      if pk !in cat then NotFound
      else if cat[pk].inOrder then Ok(Store(s, products + [pk]))
      else Ok(Store(s, products))
    else
      Ok(Store(s, RemoveFirst(products, pk)))
  }

  /** Adding an orderable product and then removing it restores the basket's
      contents, though not necessarily its order: the removal takes the
      first occurrence, the add appended at the end. */
  lemma AddThenRemove(cat: Catalogue, s: Session, pk: Id, other: Option<string>)
    requires WellFormed(s) && pk in cat && cat[pk].inOrder && !IsAdd(other)
    ensures Change(cat, s, pk, Some(AddAction)).Ok?
    ensures var s1 := Change(cat, s, pk, Some(AddAction)).value;
      Change(cat, s1, pk, other).Ok?
      && multiset(Basket(Change(cat, s1, pk, other).value)) == multiset(Basket(s))
  {
    var s1 := Change(cat, s, pk, Some(AddAction)).value;
    assert multiset(Basket(s1)) == multiset(Basket(s)) + multiset{pk};
  }

  /** A soft-deleted product can no longer be added: the edit leaves the
      basket as it was, though the product is still found. */
  lemma DeletedCannotBeAdded(cat: Catalogue, s: Session, pk: Id)
    requires WellFormed(s) && pk in cat
    ensures Delete(cat, pk).Ok?
    ensures var r := Change(Delete(cat, pk).value, s, pk, Some(AddAction));
      r.Ok? && Basket(r.value) == Basket(s)
  {
  }

  /** The current revision never lets an unknown key into a basket whose
      keys all name products, so the basket page can always price it. */
  lemma ChangeKeepsKnown(cat: Catalogue, s: Session, pk: Id, action: Option<string>)
    requires WellFormed(s) && AllKnown(cat, Basket(s))
    ensures var r := Change(cat, s, pk, action);
      r.Ok? ==> AllKnown(cat, Basket(r.value))
  {
    var r := Change(cat, s, pk, action);
    if r.Ok? && !IsAdd(action) {
      forall k | k in Basket(r.value)
        ensures k in cat
      {
        assert k in multiset(Basket(r.value));
      }
    }
  }
}

=== FILE: checkout.dfy ===
/** Placing an order from the basket page (`BasketView`): a valid form with
    an empty basket is turned back with a form error and nothing is saved;
    otherwise the order is saved, one order line per distinct product in the
    basket records its quantity, and the basket keys are dropped from the
    session. Persistence is an append-only table of orders and one of order
    lines; an order's key is its position in its table. */
module Checkout {
  import opened Http
  import opened Products
  import opened Sessions
  import opened Aggregation
  import opened OrderForm
  import MessageClasses

  /** An `OrderProduct` row. */
  datatype OrderLine = OrderLine(order: nat, product: Id, amount: nat)

  datatype Db = Db(orders: seq<Order>, lines: seq<OrderLine>)

  datatype NonFieldError = EmptyBasket

  /** The response: the form shown again with its errors, or the order placed
      with the new tables, the new session and the flash message queued. */
  datatype Outcome =
    | Invalid(fieldErrors: seq<FieldError>, nonFieldErrors: seq<NonFieldError>)
    | Placed(db: Db, session: Session, flash: MessageClasses.Message)

  const OrderPlaced := MessageClasses.Message(MessageClasses.Success, "Заказ оформлен!")

  /** The order lines one basket gives one order: one per distinct id, in
      first-occurrence order, each with that id's count as its amount. */
  predicate LinesFor(added: seq<OrderLine>, order: nat, xs: seq<Id>)
  {
    var ids := FirstOccurrences(xs);
    && |added| == |ids|
    && forall i :: 0 <= i < |added| ==> added[i] == OrderLine(order, ids[i], multiset(xs)[ids[i]])
  }

  function Amounts(lines: seq<OrderLine>): int
  {
    if |lines| == 0 then 0 else Amounts(lines[..|lines| - 1]) + lines[|lines| - 1].amount
  }

  /** Every id in the basket, and only those, gets exactly one line, and
      every amount is at least one. */
  lemma OneLinePerProduct(added: seq<OrderLine>, order: nat, xs: seq<Id>)
    requires LinesFor(added, order, xs)
    ensures forall i :: 0 <= i < |added| ==> added[i].product in xs && added[i].amount >= 1
    ensures forall k :: k in xs ==> exists i :: 0 <= i < |added| && added[i].product == k
    ensures forall i, j :: 0 <= i < j < |added| ==> added[i].product != added[j].product
  {
    var ids := FirstOccurrences(xs);
    FirstOccurrencesSpec(xs);
    forall k | k in xs
      ensures exists i :: 0 <= i < |added| && added[i].product == k
    {
      var i :| 0 <= i < |ids| && ids[i] == k;
      assert added[i].product == k;
    }
    forall i | 0 <= i < |added|
      ensures added[i].product in xs && added[i].amount >= 1
    {
      assert ids[i] in xs;
      assert ids[i] in multiset(xs);
    }
  }

  /** The saved amounts add up to the number of ids in the basket. */
  lemma AmountsSumToLength(added: seq<OrderLine>, order: nat, xs: seq<Id>)
    requires LinesFor(added, order, xs)
    ensures Amounts(added) == |xs|
  {
    var ids := FirstOccurrences(xs);
    AmountsArePrefixSums(added, order, xs, |added|);
    assert added[..|added|] == added;
    assert ids[..|added|] == ids;
    CountsSumToLength(xs);
  }

  lemma {:induction false} AmountsArePrefixSums(added: seq<OrderLine>, order: nat, xs: seq<Id>, n: nat)
    requires LinesFor(added, order, xs)
    requires n <= |added|
    ensures Amounts(added[..n]) == SumLines(FirstOccurrences(xs)[..n], Occurrences(xs), One)
  {
    var ids := FirstOccurrences(xs);
    if n > 0 {
      AmountsArePrefixSums(added, order, xs, n - 1);
      OccurrencesSpec(xs);
      FirstOccurrencesSpec(xs);
      assert added[..n][..n - 1] == added[..n - 1];
      assert ids[..n][..n - 1] == ids[..n - 1];
    }
  }

  /** `_clean_basket`: both basket keys go, whether or not they were there;
      every other key stays. */
  function CleanBasket(s: Session): (r: Session)
    ensures ProductsKey !in r && CountKey !in r
    ensures OthersUnchanged(s, r)
    ensures WellFormed(r) && Basket(r) == []
  {
    s - {ProductsKey, CountKey}
  }

  /** `_save_order_products`: regroups the basket and creates one order line
      per group. */
  method SaveOrderProducts(lines: seq<OrderLine>, order: nat, s: Session) returns (r: seq<OrderLine>)
    requires WellFormed(s)
    ensures |r| >= |lines| && r[..|lines|] == lines
    ensures LinesFor(r[|lines|..], order, Basket(s))
  {
    var t := GetTotals(s);
    var added := GroupLines(order, t.keys, t.qty);
    LinesForGroups(added, order, Basket(s), t);
    r := lines + added;
    assert r[..|lines|] == lines && r[|lines|..] == added;
  }

  /** The loop of `_save_order_products`: one line per group, in order. */
  method GroupLines(order: nat, keys: seq<Id>, qty: map<Id, nat>) returns (added: seq<OrderLine>)
    requires forall k :: k in keys ==> k in qty
    ensures |added| == |keys|
    ensures forall j :: 0 <= j < |keys| ==> added[j] == OrderLine(order, keys[j], qty[keys[j]])
  {
    added := [];
    var i := 0;
    while i < |keys|
      invariant 0 <= i <= |keys|
      invariant |added| == i
      invariant forall j :: 0 <= j < i ==> added[j] == OrderLine(order, keys[j], qty[keys[j]])
    {
      added := added + [OrderLine(order, keys[i], qty[keys[i]])];
      i := i + 1;
    }
  }

  lemma LinesForGroups(added: seq<OrderLine>, order: nat, xs: seq<Id>, t: Totals)
    requires t.keys == FirstOccurrences(xs) && t.qty == Occurrences(xs)
    requires forall k :: k in t.keys ==> k in t.qty
    requires |added| == |t.keys|
    requires forall j :: 0 <= j < |added| ==> added[j] == OrderLine(order, t.keys[j], t.qty[t.keys[j]])
    ensures LinesFor(added, order, xs)
  {
    OccurrencesSpec(xs);
    FirstOccurrencesSpec(xs);
  }

  /** `form_valid`, reached once the form has validated. The order is saved
      through the corrected `Save`; the as-written save differs from it only
      in the three contact fields (`AsWrittenClearsContact`). */
  method FormValid(db: Db, s: Session, f: Form) returns (out: Outcome)
    requires WellFormed(s)
    requires Normalised(f)
    requires Validate(f) == []
    ensures out.Invalid? <==> Basket(s) == []
    ensures out.Invalid? ==> out == Invalid([], [EmptyBasket])
    ensures out.Placed? ==> Placement(db, s, f, out)
  {
    if |Basket(s)| == 0 {
      return Invalid([], [EmptyBasket]);
    }
    var order := Save(f);
    var id := |db.orders|;
    var lines := SaveOrderProducts(db.lines, id, s);
    out := Placed(Db(db.orders + [order], lines), CleanBasket(s), OrderPlaced);
  }

  /** What a placed order leaves behind: the saved order appended, one new
      line per distinct basket id pointing at it, the basket gone from the
      session and a success message queued. */
  predicate Placement(db: Db, s: Session, f: Form, out: Outcome)
    requires WellFormed(s)
  {
    && out.Placed?
    && out.db.orders == db.orders + [Save(f)]
    && |out.db.lines| >= |db.lines|
    && out.db.lines[..|db.lines|] == db.lines
    && LinesFor(out.db.lines[|db.lines|..], |db.orders|, Basket(s))
    && out.session == CleanBasket(s)
    && out.flash == OrderPlaced
  }

  /** The whole POST: the form is built for the request's user; identity
      errors turn it back before the basket is looked at; then the
      empty-basket gate; only then is anything saved. */
  method Post(db: Db, s: Session, user: Option<User>, data: Fields) returns (out: Outcome)
    requires WellFormed(s)
    ensures Validate(NewForm(user, data)) != [] ==> out == Invalid(Validate(NewForm(user, data)), [])
    ensures Validate(NewForm(user, data)) == [] && Basket(s) == [] ==> out == Invalid([], [EmptyBasket])
    ensures out.Placed? <==> Validate(NewForm(user, data)) == [] && Basket(s) != []
    ensures out.Placed? ==> Placement(db, s, NewForm(user, data), out)
  {
    var f := NewForm(user, data);
    var errs := Validate(f);
    if errs != [] {
      return Invalid(errs, []);
    }
    out := FormValid(db, s, f);
  }

  /** The success message is shown with the success alert class. */
  lemma PlacedFlashIsSuccess()
    ensures MessageClasses.GetClassFilter(OrderPlaced) == "alert-success"
  {
  }
}

=== FILE: http.dfy ===
/** Request-level wrappers shared by the views: an optional query parameter
    and a response that is either a value or the framework's 404. */
module Http {

  /** A value that may be absent, as `request.GET.get(name)` or `dict.get(key)`. */
  datatype Option<+T> = None | Some(value: T)

  /** The outcome of a view that looks an object up with `get_object_or_404`. */
  datatype Response<+T> = Ok(value: T) | NotFound
}

=== FILE: legacy_basket.dfy ===
/** The earlier revision of the basket views (the top-level `webapp`
    package): the edit adds without consulting the catalogue, and the basket
    page groups and prices the list inline. */
module LegacyBasket {
  import opened Http
  import opened Lists
  import opened Products
  import opened Sessions
  import opened Aggregation
  import BasketChange

  /** The earlier `BasketChangeView.get`: `add` appends the key whatever it
      names; anything else removes its first occurrence. There is no 404. */
  function Change(s: Session, pk: Id, action: Option<string>): (r: Session)
    requires WellFormed(s)
    ensures WellFormed(r) && CountMatches(r) && OthersUnchanged(s, r)
    ensures BasketChange.IsAdd(action) ==> Basket(r) == Basket(s) + [pk]
    ensures !BasketChange.IsAdd(action) ==> Basket(r) == RemoveFirst(Basket(s), pk)
    ensures !BasketChange.IsAdd(action) ==> multiset(Basket(r)) == multiset(Basket(s)) - multiset{pk}
    ensures !BasketChange.IsAdd(action) && pk !in Basket(s) ==> Basket(r) == Basket(s)
  {
    var products := Basket(s);
    if BasketChange.IsAdd(action) then Store(s, products + [pk])
    else Store(s, RemoveFirst(products, pk))
  }

  /** The two revisions differ only on adds of unknown or unavailable
      products: everywhere else they produce the same session. */
  lemma AgreesWithCurrent(cat: Catalogue, s: Session, pk: Id, action: Option<string>)
    requires WellFormed(s)
    ensures (!BasketChange.IsAdd(action) || (pk in cat && cat[pk].inOrder))
        <==> BasketChange.Change(cat, s, pk, action) == Ok(Change(s, pk, action))
  {
  }

  /** An add of a key that names no product goes into the basket all the
      same, after which the basket page can no longer price it. */
  lemma UnknownAddBreaksBasket(cat: Catalogue, s: Session, pk: Id)
    requires WellFormed(s) && pk !in cat
    ensures !AllKnown(cat, Basket(Change(s, pk, Some(BasketChange.AddAction))))
  {
    assert pk in Basket(Change(s, pk, Some(BasketChange.AddAction)));
  }

  /** The context the basket page renders. */
  datatype Page = Page(basket: seq<BasketLine>, total: int)

  /** The earlier `BasketView.get_context_data`: the same group-by-count and
      pricing pass, written inline. When a key names no product,
      `Product.objects.get` raises and no page is rendered (`None`).
      Otherwise the basket has one line per distinct id in first-occurrence
      order, each priced at count times price, and its total is both the sum
      of the line totals and the sum over the distinct ids of count times
      price. */
  method BasketContext(cat: Catalogue, s: Session) returns (page: Option<Page>)
    requires WellFormed(s)
    ensures page.None? <==> !AllKnown(cat, Basket(s))
    ensures page.Some? ==> |page.value.basket| == |FirstOccurrences(Basket(s))|
    ensures page.Some? ==> forall i :: 0 <= i < |page.value.basket| ==>
      && page.value.basket[i].id == FirstOccurrences(Basket(s))[i]
      && page.value.basket[i].id in cat
      && page.value.basket[i].product == cat[page.value.basket[i].id]
      && page.value.basket[i].qty == multiset(Basket(s))[page.value.basket[i].id]
      && page.value.basket[i].total == page.value.basket[i].product.price * page.value.basket[i].qty
    ensures page.Some? ==> page.value.total == LinesTotal(page.value.basket)
    ensures page.Some? ==> page.value.total == SumLines(FirstOccurrences(Basket(s)), Occurrences(Basket(s)), PriceOf(cat))
  {
    if !AllKnown(cat, Basket(s)) {
      return None;
    }
    var basket, basketTotal := PrepareBasket(cat, s);
    GroupedSum(Basket(s), PriceOf(cat));
    return Some(Page(basket, basketTotal));
  }
}

=== FILE: lists.dfy ===
/** The two list primitives the basket relies on: finding the first
    occurrence of an element, and Python's `list.remove`. */
module Lists {

  predicate Distinct<T(==)>(xs: seq<T>)
  {
    forall i, j :: 0 <= i < j < |xs| ==> xs[i] != xs[j]
  }

  /** Position of the first occurrence of `x` (Python's `list.index`). */
  function IndexOf<T(==)>(xs: seq<T>, x: T): (i: nat)
    requires x in xs
    ensures i < |xs| && xs[i] == x
    ensures x !in xs[..i]
  {
    if xs[0] == x then 0
    else
      var j := IndexOf(xs[1..], x);
      assert xs[..j + 1] == [xs[0]] + xs[1..][..j];
      j + 1
  }

  /** Appending never moves the first occurrence of an element already present. */
  lemma {:induction false} IndexOfAppend<T>(xs: seq<T>, ys: seq<T>, x: T)
    requires x in xs
    ensures IndexOf(xs + ys, x) == IndexOf(xs, x)
  {
    if xs[0] != x {
      assert (xs + ys)[1..] == xs[1..] + ys;
      IndexOfAppend(xs[1..], ys, x);
    }
  }

  /** An element absent from a prefix is first found after it. */
  lemma {:induction false} IndexOfAfter<T>(xs: seq<T>, ys: seq<T>, x: T)
    requires x !in xs && x in ys
    ensures IndexOf(xs + ys, x) == |xs| + IndexOf(ys, x)
  {
    if |xs| > 0 {
      assert (xs + ys)[1..] == xs[1..] + ys;
      IndexOfAfter(xs[1..], ys, x);
    } else {
      assert xs + ys == ys;
    }
  }

  /** Python's `list.remove(x)` guarded by membership: drops the first
      element equal to `x` and keeps the rest in order; without `x` the list
      is unchanged. */
  function RemoveFirst<T(==)>(xs: seq<T>, x: T): (r: seq<T>)
    ensures x !in xs ==> r == xs
    ensures x in xs ==> r == xs[..IndexOf(xs, x)] + xs[IndexOf(xs, x) + 1..]
    ensures multiset(r) == multiset(xs) - multiset{x}
  {
    if |xs| == 0 then xs
    else if xs[0] == x then
      RemoveFirstHead(xs, x);
      xs[1..]
    else
      var rest := RemoveFirst(xs[1..], x);
      RemoveFirstSkip(xs, x, rest);
      MultisetSkip(xs, x, rest);
      [xs[0]] + rest
  }

  /** The step of `RemoveFirst` at a head equal to `x`. */
  lemma RemoveFirstHead<T>(xs: seq<T>, x: T)
    requires |xs| > 0 && xs[0] == x
    ensures IndexOf(xs, x) == 0
    ensures xs[1..] == xs[..0] + xs[1..]
    ensures multiset(xs[1..]) == multiset(xs) - multiset{x}
  {
    assert xs == [xs[0]] + xs[1..];
  }

  lemma MultisetSkip<T>(xs: seq<T>, x: T, rest: seq<T>)
    requires |xs| > 0 && xs[0] != x
    requires multiset(rest) == multiset(xs[1..]) - multiset{x}
    requires x !in xs[1..] ==> rest == xs[1..]
    ensures multiset([xs[0]] + rest) == multiset(xs) - multiset{x}
    ensures x !in xs ==> [xs[0]] + rest == xs
  {
    assert xs == [xs[0]] + xs[1..];
  }

  /** Past a head that differs from `x`, removing from the tail removes the
      first occurrence of the whole list. */
  lemma RemoveFirstSkip<T>(xs: seq<T>, x: T, rest: seq<T>)
    requires |xs| > 0 && xs[0] != x
    requires x in xs[1..] ==> rest == xs[1..][..IndexOf(xs[1..], x)] + xs[1..][IndexOf(xs[1..], x) + 1..]
    ensures x in xs ==> [xs[0]] + rest == xs[..IndexOf(xs, x)] + xs[IndexOf(xs, x) + 1..]
  {
    if x in xs {
      assert x in xs[1..];
      var j := IndexOf(xs[1..], x);
      assert IndexOf(xs, x) == j + 1;
      SpliceAfterHead(xs, j);
    }
  }

  /** Removing position `j` of the tail is removing position `j + 1` of the
      whole list. */
  lemma SpliceAfterHead<T>(xs: seq<T>, j: nat)
    requires j + 1 < |xs|
    ensures [xs[0]] + (xs[1..][..j] + xs[1..][j + 1..]) == xs[..j + 1] + xs[j + 2..]
  {
    assert xs[..j + 1] == [xs[0]] + xs[1..][..j];
    assert xs[j + 2..] == xs[1..][j + 1..];
  }

  /** Removing takes out exactly the first occurrence: everything before it
      stays in place and everything after it moves down by one. */
  lemma RemoveFirstKeepsOrder<T>(xs: seq<T>, x: T)
    requires x in xs
    ensures var r := RemoveFirst(xs, x); var i := IndexOf(xs, x);
      |r| == |xs| - 1 && r[..i] == xs[..i] && r[i..] == xs[i + 1..] && x !in r[..i]
  {
    var i := IndexOf(xs, x);
    var r := xs[..i] + xs[i + 1..];
    assert r[..i] == xs[..i];
    assert r[i..] == xs[i + 1..];
  }
}

=== FILE: message_classes.dfy ===
/** The template helpers that pick a Bootstrap alert class for a flash
    message from its level. */
module MessageClasses {

  /** Django's five message levels; any other integer level is `Custom`. */
  datatype Level = Debug | Info | Success | Warning | Error | Custom(n: int)

  datatype Message = Message(level: Level, text: string)

  const Fallback := "alert-primary"

  /** `DEFAULT_CLASSES`. */
  const DefaultClasses: map<Level, string> := map[
    Debug := "alert-secondary",
    Info := "alert-primary",
    Success := "alert-success",
    Warning := "alert-warning",
    Error := "alert-danger"
  ]

  /** The class each level should get, written as a case analysis. */
  function AlertClass(level: Level): string
  {
    match level
    case Debug => "alert-secondary"
    case Info => "alert-primary"
    case Success => "alert-success"
    case Warning => "alert-warning"
    case Error => "alert-danger"
    case Custom(_) => "alert-primary"
  }

  /** `DEFAULT_CLASSES.get(message.level, 'alert-primary')`. */
  function Lookup(m: Message): (r: string)
    ensures r == AlertClass(m.level)
    ensures r in DefaultClasses.Values
  {
    if m.level in DefaultClasses then DefaultClasses[m.level]
    else
      assert DefaultClasses[Info] == Fallback;
      Fallback
  }

  /** The `get_class_filter` template filter. */
  function GetClassFilter(m: Message): (r: string)
    ensures r == AlertClass(m.level)
  {
    Lookup(m)
  }

  /** The `get_class_tag` template tag. */
  function GetClassTag(m: Message): (r: string)
    ensures r == AlertClass(m.level)
  {
    Lookup(m)
  }

  /** The filter and the tag agree on every message, and only the five known
      levels have an entry; every other level falls back to the primary class. */
  lemma FilterMatchesTag(m: Message)
    ensures GetClassFilter(m) == GetClassTag(m)
    ensures m.level !in DefaultClasses <==> m.level.Custom?
    ensures m.level.Custom? ==> GetClassFilter(m) == Fallback
  {
  }
}

=== FILE: order_form.dfy ===
/** The basket order form (`BasketOrderCreateForm`): an order may be placed
    by a signed-in user, or anonymously if a first name, an e-mail address and
    a phone number are given. The last name is optional either way. */
module OrderForm {
  import opened Http

  datatype User = User(id: nat, isAuthenticated: bool)

  /** The values the browser sent; a field it did not send is `None`. */
  datatype Fields = Fields(firstName: Option<string>, lastName: Option<string>, email: Option<string>, phone: Option<string>)

  /** A bound form: the user it was built for, normalised, and its data. */
  datatype Form = Form(user: Option<User>, data: Fields)

  datatype Order = Order(firstName: Option<string>, lastName: Option<string>, email: Option<string>, phone: Option<string>, user: Option<User>)

  datatype FieldError = FirstNameMissing | EmailMissing | PhoneMissing

  /** The constructor: a user that is not signed in counts as no user. */
  function NewForm(user: Option<User>, data: Fields): (f: Form)
    ensures f.data == data
    ensures f.user.Some? <==> user.Some? && user.value.isAuthenticated
    ensures f.user.Some? ==> f.user == user
    ensures Normalised(f)
  {
    if user.Some? && !user.value.isAuthenticated then Form(None, data) else Form(user, data)
  }

  /** A form as the constructor leaves it: any user it holds is signed in. */
  predicate Normalised(f: Form)
  {
    f.user.Some? ==> f.user.value.isAuthenticated
  }

  /** The normalised forms are exactly those the constructor can build. */
  lemma NormalisedIffBuilt(f: Form)
    ensures Normalised(f) <==> f == NewForm(f.user, f.data)
  {
  }

  /** Python's `str.isspace` for one character. */
  predicate IsSpace(c: char)
  {
    || c == ' ' || ('\t' <= c <= '\r') || ('\U{1c}' <= c <= '\U{1f}')
    || c == '\U{85}' || c == '\U{a0}' || c == '\U{1680}'
    || ('\U{2000}' <= c <= '\U{200a}') || c == '\U{2028}' || c == '\U{2029}'
    || c == '\U{202f}' || c == '\U{205f}' || c == '\U{3000}'
  }

  predicate AllSpace(s: string)
  {
    forall k :: 0 <= k < |s| ==> IsSpace(s[k])
  }

  /** `lstrip()`: the suffix left after the leading whitespace. */
  function TrimStart(s: string): string
  {
    if |s| > 0 && IsSpace(s[0]) then TrimStart(s[1..]) else s
  }

  /** `rstrip()`: the prefix left before the trailing whitespace. */
  function TrimEnd(s: string): string
  {
    if |s| > 0 && IsSpace(s[|s| - 1]) then TrimEnd(s[..|s| - 1]) else s
  }

  /** `strip()`. */
  function Strip(s: string): string
  {
    TrimEnd(TrimStart(s))
  }

  /** `lstrip()` drops exactly a run of leading whitespace: what is left is a
      suffix that does not start with whitespace. */
  lemma {:induction false} TrimStartSpec(s: string)
    ensures |TrimStart(s)| <= |s| && TrimStart(s) == s[|s| - |TrimStart(s)|..]
    ensures AllSpace(s[..|s| - |TrimStart(s)|])
    ensures TrimStart(s) == [] || !IsSpace(TrimStart(s)[0])
  {
    if |s| > 0 && IsSpace(s[0]) {
      var r := TrimStart(s[1..]);
      TrimStartSpec(s[1..]);
      assert s[..|s| - |r|] == [s[0]] + s[1..][..|s| - 1 - |r|];
    }
  }

  /** `rstrip()` drops exactly a run of trailing whitespace: what is left is
      a prefix that does not end with whitespace. */
  lemma {:induction false} TrimEndSpec(s: string)
    ensures |TrimEnd(s)| <= |s| && TrimEnd(s) == s[..|TrimEnd(s)|]
    ensures AllSpace(s[|TrimEnd(s)|..])
    ensures TrimEnd(s) == [] || !IsSpace(TrimEnd(s)[|TrimEnd(s)| - 1])
  {
    if |s| > 0 && IsSpace(s[|s| - 1]) {
      var r := TrimEnd(s[..|s| - 1]);
      TrimEndSpec(s[..|s| - 1]);
      assert s[|r|..] == s[..|s| - 1][|r|..] + [s[|s| - 1]];
    }
  }

  /** Stripping leaves nothing exactly when the string is all whitespace. */
  lemma StripEmptyIff(s: string)
    ensures Strip(s) == [] <==> AllSpace(s)
  {
    var t := TrimStart(s);
    TrimStartSpec(s);
    TrimEndSpec(t);
    if Strip(s) == [] {
      assert t[0..] == t;
      assert t == [];
      assert s[..|s|] == s;
    }
    if AllSpace(s) {
      TrimStartAllSpace(s);
    }
  }

  lemma {:induction false} TrimStartAllSpace(s: string)
    requires AllSpace(s)
    ensures TrimStart(s) == []
  {
    if |s| > 0 {
      TrimStartAllSpace(s[1..]);
    }
  }

  /** A stripped string has no whitespace at either end, so stripping it
      again changes nothing. */
  lemma StripIdempotent(s: string)
    ensures Strip(Strip(s)) == Strip(s)
  {
    var r := Strip(s);
    var t := TrimStart(s);
    TrimStartSpec(s);
    TrimEndSpec(t);
    TrimStartSpec(r);
    TrimEndSpec(r);
    if r != [] {
      assert r[0] == t[0];
    }
  }

  /** The form field's own cleaning (`CharField.to_python`, which strips by
      default), applied before the `clean_<field>` hooks run: a sent value
      loses its leading and trailing whitespace, and a field that was not
      sent gets the field's empty value `""`, like a sent empty one. Every
      field therefore has a cleaned value. */
  function Clean(v: Option<string>): (c: Option<string>)
    ensures c.Some?
  {
    if v.None? then Some("") else Some(Strip(v.value))
  }

  /** An unsent field and a field sent empty, or sent as whitespace only,
      clean to the same value. */
  lemma UnsentIsEmpty(s: string)
    requires AllSpace(s)
    ensures Clean(None) == Clean(Some(s)) == Some("")
  {
    StripEmptyIff(s);
  }

  /** Cleaning an already cleaned value changes nothing. */
  lemma CleanStable(v: Option<string>)
    ensures Clean(Clean(v)) == Clean(v)
  {
    if v.Some? {
      StripIdempotent(v.value);
    }
  }

  /** Python falsiness of `cleaned_data.get(name)`: missing or empty. */
  predicate Blank(v: Option<string>)
  {
    v.None? || v.value == ""
  }

  /** What a `clean_<field>` hook tests: the field-cleaned value is falsy. */
  predicate Missing(v: Option<string>)
  {
    Blank(Clean(v))
  }

  /** A field counts as blank for the hooks exactly when it was not sent or
      holds nothing but whitespace. */
  lemma BlankIffAllSpace(v: Option<string>)
    ensures Missing(v) <==> v.None? || AllSpace(v.value)
  {
    if v.Some? {
      StripEmptyIff(v.value);
    }
  }

  /** The three `clean_<field>` checks, in field order; an error is raised only
      when there is no user and the field, once stripped, is blank. */
  function Validate(f: Form): (errs: seq<FieldError>)
    ensures FirstNameMissing in errs <==> f.user.None? && Missing(f.data.firstName)
    ensures EmailMissing in errs <==> f.user.None? && Missing(f.data.email)
    ensures PhoneMissing in errs <==> f.user.None? && Missing(f.data.phone)
    ensures f.user.Some? ==> errs == []
    ensures |errs| <= 3
  {
    var anonymous := f.user.None?;
    (if anonymous && Missing(f.data.firstName) then [FirstNameMissing] else [])
    + (if anonymous && Missing(f.data.email) then [EmailMissing] else [])
    + (if anonymous && Missing(f.data.phone) then [PhoneMissing] else [])
  }

  /** Whitespace is no answer: an anonymous visitor who sends only blanks is
      asked for all three fields. */
  lemma WhitespaceIsMissing()
    ensures Validate(NewForm(None, Fields(Some(" "), None, Some("\t"), Some(" \n ")))) == [FirstNameMissing, EmailMissing, PhoneMissing]
  {
    assert AllSpace(" ") && AllSpace("\t") && AllSpace(" \n ");
    BlankIffAllSpace(Some(" "));
    BlankIffAllSpace(Some("\t"));
    BlankIffAllSpace(Some(" \n "));
  }

  /** A signed-in user is never asked for contact details, whatever was sent. */
  lemma AuthenticatedAlwaysValid(u: User, data: Fields)
    requires u.isAuthenticated
    ensures Validate(NewForm(Some(u), data)) == []
  {
  }

  /** A user that is not signed in is treated exactly like no user at all. */
  lemma UnauthenticatedIsAnonymous(u: User, data: Fields)
    requires !u.isAuthenticated
    ensures Validate(NewForm(Some(u), data)) == Validate(NewForm(None, data))
  {
  }

  /** The last name never takes part in validation. */
  lemma LastNameIgnored(f: Form, lastName: Option<string>)
    ensures Validate(f.(data := f.data.(lastName := lastName))) == Validate(f)
  {
  }

  /** The cleaned data as the form produces it: each field is first cleaned
      by the form field, but each `clean_<field>` hook then falls off its end
      and so returns `None`, and Django stores a hook's return value as the
      field's cleaned value. */
  function CleanedDataAsWritten(f: Form): (d: Fields)
    ensures d.lastName == Clean(f.data.lastName)
    ensures d.firstName.None? && d.email.None? && d.phone.None?
  {
    Fields(None, Clean(f.data.lastName), None, None)
  }

  /** `save` as the form behaves: the user is attached, but the contact
      fields come from the cleared cleaned data. */
  function SaveAsWritten(f: Form): (o: Order)
    ensures o.user == f.user
    ensures o.firstName.None? && o.email.None? && o.phone.None?
  {
    var d := CleanedDataAsWritten(f);
    Order(d.firstName, d.lastName, d.email, d.phone, f.user)
  }

  /** An anonymous visitor who fills in every contact field passes validation,
      yet the order built from the form carries neither a user nor any of the
      contact details that validation insisted on. */
  lemma AsWrittenLosesContact()
    ensures var f := NewForm(None, Fields(Some("Ann"), None, Some("ann@example.org"), Some("555")));
      Validate(f) == [] && SaveAsWritten(f).user.None? && SaveAsWritten(f).firstName.None?
      && SaveAsWritten(f).email.None? && SaveAsWritten(f).phone.None?
  {
    assert !IsSpace("Ann"[0]) && !IsSpace("ann@example.org"[0]) && !IsSpace("555"[0]);
    BlankIffAllSpace(Some("Ann"));
    BlankIffAllSpace(Some("ann@example.org"));
    BlankIffAllSpace(Some("555"));
  }

  /** The cleaned data with each hook returning the value it checked, as the
      checks evidently intend: every field keeps its field-cleaned value, the
      one the hook tested, and a kept value has no whitespace left at either
      end. */
  function CleanedData(f: Form): (d: Fields)
    ensures d.firstName == Clean(f.data.firstName) && d.lastName == Clean(f.data.lastName)
    ensures d.email == Clean(f.data.email) && d.phone == Clean(f.data.phone)
    ensures Blank(d.firstName) <==> Missing(f.data.firstName)
    ensures Blank(d.email) <==> Missing(f.data.email)
    ensures Blank(d.phone) <==> Missing(f.data.phone)
    ensures Clean(d.firstName) == d.firstName && Clean(d.lastName) == d.lastName
    ensures Clean(d.email) == d.email && Clean(d.phone) == d.phone
  {
    CleanStable(f.data.firstName);
    CleanStable(f.data.lastName);
    CleanStable(f.data.email);
    CleanStable(f.data.phone);
    Fields(Clean(f.data.firstName), Clean(f.data.lastName), Clean(f.data.email), Clean(f.data.phone))
  }

  /** `save`: the order gets the form's normalised user, possibly none, and
      the cleaned contact fields. */
  function Save(f: Form): (o: Order)
    ensures o.user == f.user
    ensures o.firstName == CleanedData(f).firstName && o.lastName == CleanedData(f).lastName
    ensures o.email == CleanedData(f).email && o.phone == CleanedData(f).phone
  {
    var d := CleanedData(f);
    Order(d.firstName, d.lastName, d.email, d.phone, f.user)
  }

  /** The two saves differ exactly in the three checked contact fields: the
      as-written save is the corrected one with those fields cleared. */
  lemma AsWrittenClearsContact(f: Form)
    ensures SaveAsWritten(f) == Save(f).(firstName := None, email := None, phone := None)
  {
  }

  /** With the corrected cleaning every accepted order can be traced to
      someone: either it has a signed-in user, or it has a first name, an
      e-mail address and a phone number, none of them blank. */
  lemma SavedOrderIdentifiable(user: Option<User>, data: Fields)
    requires Validate(NewForm(user, data)) == []
    ensures var o := Save(NewForm(user, data));
      (o.user.Some? && o.user.value.isAuthenticated)
      || (!Blank(o.firstName) && !Blank(o.email) && !Blank(o.phone))
  {
    var f := NewForm(user, data);
    if f.user.None? {
      assert FirstNameMissing !in Validate(f);
      assert EmailMissing !in Validate(f);
      assert PhoneMissing !in Validate(f);
    }
  }

  /** A form built for a visitor who is not signed in saves an order with no
      user. */
  lemma SaveDropsUnauthenticatedUser(u: User, data: Fields)
    requires !u.isAuthenticated
    ensures Save(NewForm(Some(u), data)).user.None?
  {
  }
}

=== FILE: products.dfy ===
/** The product catalogue as the views see it: every product row keyed by its
    primary key, with its price and its availability flag `in_order`. */
module Products {
  import opened Http

  type Id = string

  datatype Product = Product(price: int, inOrder: bool)

  /** All product rows, deleted ones included: a delete never removes a row. */
  type Catalogue = map<Id, Product>

  /** Every key in the list names a product row, deleted or not: what
      `Product.objects.get` needs to find them all. */
  predicate AllKnown(cat: Catalogue, xs: seq<Id>)
  {
    forall k :: k in xs ==> k in cat
  }

  /** The products the index page lists: exactly the ones still orderable. */
  function Index(cat: Catalogue): (r: set<Id>)
    ensures r <= cat.Keys
    ensures forall k :: k in r ==> cat[k].inOrder
    ensures forall k :: k in cat && cat[k].inOrder ==> k in r
  {
    set k | k in cat && cat[k].inOrder
  }

  /** Deleting a product is a soft delete: its availability flag is cleared,
      the row and its price stay. An unknown key is a 404. */
  function Delete(cat: Catalogue, pk: Id): (r: Response<Catalogue>)
    ensures r.NotFound? <==> pk !in cat
    ensures r.Ok? ==> r.value.Keys == cat.Keys
    ensures r.Ok? ==> r.value[pk] == Product(cat[pk].price, false)
    ensures r.Ok? ==> forall k :: k in cat && k != pk ==> r.value[k] == cat[k]
  {
    if pk !in cat then NotFound
    else Ok(cat[pk := cat[pk].(inOrder := false)])
  }

  /** A deleted product drops out of the index and out of nothing else: it is
      still resolvable, with the same price, for existing baskets and orders. */
  lemma DeleteHidesFromIndex(cat: Catalogue, pk: Id)
    requires pk in cat
    ensures Delete(cat, pk).Ok?
    ensures pk in Delete(cat, pk).value
    ensures Delete(cat, pk).value[pk].price == cat[pk].price
    ensures Index(Delete(cat, pk).value) == Index(cat) - {pk}
  {
  }

  /** Deleting twice is the same as deleting once. */
  lemma DeleteIdempotent(cat: Catalogue, pk: Id)
    requires pk in cat
    ensures Delete(Delete(cat, pk).value, pk) == Delete(cat, pk)
  {
    var c := Delete(cat, pk).value;
    assert c[pk := c[pk].(inOrder := false)] == c;
  }
}

=== FILE: sessions.dfy ===
/** The session storage the basket lives in: a map from keys to stored values.
    The basket uses two keys; every other key (visit statistics and the like)
    is opaque here. */
module Sessions {
  import opened Products

  datatype Value = IdList(ids: seq<Id>) | Int(n: int) | Other(raw: string)

  type Session = map<string, Value>

  const ProductsKey := "products"
  const CountKey := "products_count"

  /** What the application itself ever stores under `products`: a list of ids. */
  predicate WellFormed(s: Session)
  {
    ProductsKey in s ==> s[ProductsKey].IdList?
  }

  /** `session.get('products', [])`. */
  function Basket(s: Session): (r: seq<Id>)
    requires WellFormed(s)
    ensures ProductsKey !in s ==> r == []
  {
    if ProductsKey in s then s[ProductsKey].ids else []
  }

  /** The cached count agrees with the list it caches. */
  predicate CountMatches(s: Session)
    requires WellFormed(s)
  {
    CountKey in s && s[CountKey] == Int(|Basket(s)|)
  }

  /** Every key other than the two basket keys is left as it was. */
  predicate OthersUnchanged(s: Session, s': Session)
  {
    s' - {ProductsKey, CountKey} == s - {ProductsKey, CountKey}
  }

  /** Writes a list back: `session['products'] = products` followed by
      `session['products_count'] = len(products)`. */
  function Store(s: Session, products: seq<Id>): (r: Session)
    ensures WellFormed(r) && Basket(r) == products
    ensures CountMatches(r)
    ensures OthersUnchanged(s, r)
  {
    s[ProductsKey := IdList(products)][CountKey := Int(|products|)]
  }
}
